=== FILE: README.md ===
# LS8 CPU in Dafny

A model of the LS8 emulator's `CPU` class (`cpu.py`). LS8 is an 8-register, 256-byte toy computer. The model covers:

- **Loader** (`loader.dfy`): the program loader. It strips each line's `#` comment and surrounding whitespace, skips blank lines, reads every remaining line as a base-2 literal and stores it at the next address from 0.
- **Machine** (`machine.dfy`): the machine as values. The state is registers, RAM, PC, the flag dictionary and the values PRN has printed. It holds the opcode table, the ALU, one pass of the fetch–decode–execute loop (`Step`) and a fuel-bounded `Run`.
- **Instructions** (`instructions.dfy`): what one step does for each entry of the opcode table.
- **Execution** (`execution.dfy`): how runs compose, two programs run end to end, and the stack operations as the source writes them.
- **Ls8** (`cpu.dfy`): the `CPU` object itself. Its registers and RAM are arrays updated in place. Its `Alu`, `Step` and `Run` methods are proved to produce exactly the state the pure functions describe. `Load` is proved to report the same error, and on success to leave exactly the RAM image the pure loader describes.

Modelling choices:

- **Faults:** every exception the source leaves uncaught is a `Fault`. That covers a RAM or register index outside its range and an unsupported ALU operation. In the source, each of these is raised before anything is written, so the imperative `Step` leaves the object unchanged when it crashes.
- **Caught `KeyError`s:** the loop's `KeyError` handler covers an unknown opcode byte. It also covers JEQ or JNE before any CMP, because the flag dictionary is still empty. Both move the PC by one.
- **No wrap-around:** registers and cells hold unbounded integers, because nothing in the source masks them. MUL does not wrap and the loader accepts literals longer than 8 digits.

## Model

| member | source | states |
|---|---|---|
| Loader.StripComment | cpu.py:41 | `line.split('#')[0]`: the line up to its first `#`; characterized by `StripCommentCutsAtHash` |
| Loader.IsSpace | cpu.py:42 | the characters `str.strip()` removes, restricted to ASCII; used by `LeadingSpacesAreSpaces` and `TrailingSpacesAreSpaces` |
| Loader.Strip | cpu.py:42 | `str.strip()`: the input without its leading and trailing whitespace runs; characterized by `LeadingSpacesAreSpaces` and `TrailingSpacesAreSpaces` |
| Loader.Clean | cpu.py:41-42 | a line after comment removal and `strip`; characterized by `CleanHasNoCommentOrPadding`, `CleanLiteral` and `SkippedIsDropped` |
| Loader.BinaryValue | cpu.py:47 | the number a digit string denotes, most significant digit first; characterized by `BinaryValueBound`, `EightDigitValue` and `ParseBinaryLiteral` |
| Loader.ParseBinary | cpu.py:47 | `int(line, 2)` on strings of `0` and `1`, failing on anything else; `ParseBinaryLiteral` proves it inverts `BinaryLiteral` |
| Loader.StripCommentCutsAtHash | cpu.py:41 | the kept part is the longest prefix of the line without `#`; the line continues with `#` if anything was cut |
| Loader.LeadingSpacesAreSpaces | cpu.py:42 | the leading run `strip` removes is all whitespace and is followed by a non-whitespace character or the end |
| Loader.TrailingSpacesAreSpaces | cpu.py:42 | the trailing run `strip` removes is all whitespace and is preceded by a non-whitespace character or the start |
| Loader.CleanHasNoCommentOrPadding | cpu.py:41-42 | a line after comment removal and `strip` holds no `#` and neither starts nor ends with whitespace |
| Loader.CleanLiteral | cpu.py:41-42 | a bare binary literal line passes through comment removal and `strip` unchanged |
| Loader.BinaryLiteral | cpu.py:47 | the literal written for a number is a non-empty string of binary digits |
| Loader.ParseBinaryLiteral | cpu.py:47 | `int(line, 2)` reads back the binary literal of every natural number (round trip) |
| Loader.BinaryValueBound | cpu.py:47 | an n-digit literal denotes less than 2^n, so 8 digits give a byte |
| Loader.EightDigitValue | cpu.py:47 | an 8-digit literal is the weighted sum 128·d0 + … + d7 of its digits |
| Loader.Kept | cpu.py:40-45 | no more lines take an address than the text has |
| Loader.KeptLinesAreClean | cpu.py:40-45 | every line that takes an address is non-empty and free of comments |
| Loader.SkippedIsDropped | cpu.py:41-45 | a line takes no address if and only if it holds only whitespace before its first `#` (blank, comment or indented comment line) |
| Loader.KeptLiterals | cpu.py:40-45 | from bare literal lines (no comment, no padding), comment lines and blank lines the loader keeps exactly the literals, in order |
| Loader.LoadFrom | cpu.py:37-50 | a successful load yields a 256-cell RAM image |
| Loader.LoadSucceedsIff | cpu.py:39-50 | loading succeeds if and only if every kept line is a binary literal and they fit in RAM from the start address |
| Loader.LoadPlacesKeptLines | cpu.py:39-50 | after a successful load the k-th kept line's value sits at start+k and every other cell is unchanged |
| Loader.TooManyLinesFault | cpu.py:47-50 | when the kept lines up to the first one past address 255 are literals, the load fails with `MemoryFull`, whatever follows |
| Loader.BadLiteralFault | cpu.py:47-49 | when the first kept line that is not a literal is read at an address no later than the end of RAM, the load fails with `BadLiteral` of that line, even when that address is 256, since `int(line, 2)` runs before the store |
| Machine.Init | cpu.py:8-19 | a fresh CPU has zero registers except SP = 0xF4 (index -1 is register 7), zero RAM, PC 0, no flags, no output |
| Machine.Boot | ls8.py:14-16 | booting a program succeeds if and only if loading it into a fresh CPU does, and changes nothing but RAM |
| Machine.OpCode | cpu.py:21-32 | the key of each entry of `OPCODES`; `Decode` and `DecodeOpCode` prove the table is a bijection onto its keys |
| Machine.Mnemonic | cpu.py:21-32 | the name of each entry of `OPCODES`, which `alu` receives; `Instructions.AddNeverDispatched` proves no entry is `ADD` |
| Machine.Decode | cpu.py:21-32 | a decoded byte is exactly the table key of its operation; an unknown byte matches no key |
| Machine.DecodeOpCode | cpu.py:21-32 | decoding inverts the opcode table |
| Machine.Alu | cpu.py:56-80 | succeeds if and only if the operation is ADD, MUL or CMP on in-range registers; ADD and MUL update only register a; CMP sets E, G and L by how a and b compare, exactly one of them, and leaves registers alone |
| Machine.Execute | cpu.py:111-169 | the branch of the loop for a decoded instruction; a step that does not fault keeps 8 registers and 256 cells; each branch is stated in full by the `Instructions` lemmas |
| Machine.AluStep | cpu.py:123-127 | MUL and CMP never halt; when they run, only registers and flags change and PC moves by 3 |
| Machine.Jump | cpu.py:147-166 | the jump of JMP, and of JEQ or JNE when taken: it never halts and changes nothing but the PC |
| Machine.Step | cpu.py:105-173 | a step that does not fault keeps 8 registers and 256 cells |
| Machine.StepInvariants | cpu.py:105-173 | a fetch outside RAM faults; a step halts exactly at HLT and then changes nothing; it prints at most one value and drops none; it writes RAM only at SP; flags stay one-hot |
| Machine.Run | cpu.py:102-173 | every state a bounded run reaches is well formed |
| Machine.RunEnds | cpu.py:102-173 | a run finishes only at a HLT, crashes only on a step that faults, and its output extends the initial output |
| Instructions.LdiLoadsRegister | cpu.py:111-115 | LDI runs if and only if its operands are in range; it then sets only register `ram[pc+1]` to `ram[pc+2]` and moves PC by 3 |
| Instructions.PrnPrintsRegister | cpu.py:117-121 | PRN runs if and only if its operand is in range; it then appends that register's value to the output and moves PC by 2 |
| Instructions.MulMultiplies | cpu.py:123-127 | MUL replaces register a by the product of a and b, changes no other register and moves PC by 3 |
| Instructions.CmpSetsOneFlag | cpu.py:123-127 | CMP sets exactly one of E, G, L according to the comparison, changes nothing else and moves PC by 3 |
| Instructions.JeqJumpsIffEqual | cpu.py:152-158 | after a CMP, JEQ jumps to the operand register's value when E is set and otherwise moves PC by 2 |
| Instructions.JneJumpsIffNotEqual | cpu.py:160-166 | after a CMP, JNE jumps when E is clear and otherwise moves PC by 2 |
| Instructions.JmpJumps | cpu.py:147-150 | JMP runs if and only if its operand is in range and sets PC to that register's value |
| Instructions.FetchOutsideRamFaults | cpu.py:106 | a fetch from outside RAM raises an IndexError outside the `try`, so the step faults and the run ends |
| Instructions.UnknownByteSkipped | cpu.py:171-173 | an unknown byte changes only the PC, which moves by 1 |
| Instructions.JumpBeforeCmpSkipped | cpu.py:152-153 | JEQ or JNE before any CMP hits the missing flag and, like an unknown byte, moves PC by 1 |
| Instructions.PushWritesStack | cpu.py:129-136 | PUSH writes the register at SP and nowhere else in RAM, decrements SP, keeps the other registers and moves PC by 2 |
| Instructions.PopReadsStack | cpu.py:138-145 | POP copies `ram[SP]` into the register, then increments SP; RAM is unchanged |
| Instructions.PushThenPopRestoresSp | cpu.py:129-145 | PUSH then POP into another register restores SP, but the popped value is the cell below the pushed one |
| Instructions.HltHalts | cpu.py:168-169 | HLT ends the loop and changes nothing, not even PC |
| Instructions.StDoesNothing | cpu.py:27 | ST is in the table but no branch handles it, so a step on it changes nothing |
| Instructions.FixedWidthAdvance | cpu.py:111-145 | LDI, PRN, MUL, CMP, PUSH and POP move PC by the operand count in the opcode's top two bits, plus one |
| Instructions.AddNeverDispatched | cpu.py:21-32 | no table entry reaches the ALU's ADD case |
| Execution.RunSplits | cpu.py:104-105 | running a+b steps is running a steps and then b more from where the first run stopped |
| Execution.RunSettles | cpu.py:104-105 | once a run has halted or crashed, more fuel changes nothing |
| Execution.HltEndsRun | cpu.py:168-169 | a run started on a HLT finishes at once in the state it found |
| Execution.StSpinsForever | cpu.py:27 | a run started on an ST never ends, whatever the fuel |
| Execution.PrintEightKept | cpu.py:40-45 | the print-8 program text keeps its six literal lines |
| Execution.BootPlacesBytes | cpu.py:39-50 | a text whose kept lines denote given bytes boots with those bytes from address 0 and zeros after them |
| Execution.PrintEightLoads | cpu.py:37-50 | the print-8 program loads as LDI R0,8 / PRN R0 / HLT |
| Execution.PrintEightRuns | cpu.py:111-121 | those bytes print 8 and halt at address 5 after three steps |
| Execution.PrintEightEndToEnd | ls8.py:14-17 | loading the print-8 text into a fresh CPU and running it prints exactly 8 |
| Execution.PushPopRun | cpu.py:129-145 | LDI R0,5 / PUSH R0 / POP R1 / HLT restores SP and keeps R0 = 5, but R1 receives 0, not 5 |
| Execution.StepAsWritten | cpu.py:129-145 | the step as written: it either faults or agrees with `Step`, and `StackOpsFaultAsWritten` says which |
| Execution.StackOpsFaultAsWritten | cpu.py:129-145 | as written, every PUSH or POP crashes on `self.reg`, and every other byte behaves as in `Step` |
| Execution.PushPopCrashesAsWritten | cpu.py:129-131 | the PUSH of the push-pop program runs in the model but crashes the source |
| Ls8.Cpu.constructor | cpu.py:8-19 | the new object's state is `Machine.Init()` in fresh arrays |
| Ls8.Cpu.Load | cpu.py:34-50 | the loop reports the error `LoadFrom` gives, and on success leaves exactly the RAM image it describes |
| Ls8.Cpu.RamRead | cpu.py:175-176 | reading succeeds if and only if the address is in RAM, and returns that cell |
| Ls8.Cpu.RamWrite | cpu.py:178-179 | writing succeeds if and only if the address is in RAM; the cell then reads back the value and no other cell changes |
| Ls8.Cpu.Alu | cpu.py:56-80 | registers and flags become what `Machine.Alu` gives; on failure nothing changes |
| Ls8.Cpu.Step | cpu.py:105-173 | the in-place step produces the state `Machine.Step` gives, or changes nothing when it faults |
| Ls8.Cpu.AluStep | cpu.py:123-127 | the MUL/CMP case produces the state `Machine.AluStep` gives, or nothing changes |
| Ls8.Cpu.Jump | cpu.py:147-166 | the taken jump sets PC as `Machine.Jump` says, or nothing changes |
| Ls8.Cpu.Run | cpu.py:102-173 | the loop ends halted, crashed or out of fuel exactly as `Machine.Run` says, in the state it gives |

## Left out

- Opening the file and the `FileNotFoundError` branch that prints and exits (cpu.py:37-38, 51-53): the loader takes the lines of the text as a parameter.
- The command-line front end in `ls8.py`: argument parsing is I/O. Only its load-then-run sequence is modelled, in `Machine.Boot` and `Execution.PrintEightEndToEnd`.
- PRN's formatted print (cpu.py:120) and the "unknown command" message (cpu.py:172): PRN's value is appended to `output`, and the message is not modelled.
- `trace()` (cpu.py:82-100): it only prints, and it reads the undefined `self.reg` too.
- The attributes `self.ir`, `self.halt` and `self.eq`: `ir` is a local of each step, and the other two are never read.
- Negative indices: Python reads `ram[-1]` or `registers[-3]` from the end of the list. The model treats every index outside 0–255 (RAM) or 0–7 (registers) as a fault. The stack pointer's own index -1 is modelled as register 7.
- Loader.ParseBinary: accepts only non-empty strings of `0` and `1`. Python's `int(s, 2)` also takes a sign, a `0b` prefix and `_` separators, which the model rejects.
- Loader.IsSpace: covers ASCII whitespace and the separators U+001C–U+001F only. `str.strip()` also removes non-ASCII whitespace.
- Machine.Run: is bounded by fuel. A program that never halts ends with `OutOfFuel`, which leaves out the source's unbounded loop.
- Ls8.Cpu.Load: does not state the contents of RAM after an error. The source then aborts part-way, and the loaded prefix is not specified.
- Why an execution fault happened (IndexError, AttributeError or the ALU exception) is not recorded: a fault only reports which step raised it.

## Where the code and the design differ

The model follows the code in each of these cases:

- **POP order:** POP reads `ram[SP]` and then increments SP (cpu.py:140-144), instead of incrementing first. PUSH followed by POP restores SP but does not return the pushed value (`Instructions.PushThenPopRestoresSp`, `Execution.PushPopRun`).
- **ST:** ST is in the opcode table but has no branch in `run` (cpu.py:27). It changes nothing, and the loop spins on it (`Execution.StSpinsForever`).
- **ADD:** ADD has an ALU case but no table entry (cpu.py:59-60), so no byte dispatches it (`Instructions.AddNeverDispatched`).
- **Reading a flag before any CMP:** JEQ and JNE read the flag before any CMP has set it. That raises a `KeyError`, which the unknown-command handler catches and skips by one byte; it is not a fatal error.
- **Loader capacity:** the loader has no explicit capacity check. A 257th kept line raises an uncaught IndexError, modelled as `MemoryFull`; blank and comment lines take no address.
- **Widths:** registers and cells are not masked to 8 bits, and MUL does not wrap.
- **Stack pointer range:** SP is not kept in range by PUSH or POP. An access through an out-of-range SP faults at the next stack operation.

## Findings

| source | as written | input that shows it | evidently intended | confidence | as-written member | corrected member |
|---|---|---|---|---|---|---|
| cpu.py:131, cpu.py:140 | PUSH and POP read `self.reg`, which no method assigns, so every PUSH or POP raises an uncaught AttributeError | the program LDI R0,5 / PUSH R0 / POP R1 / HLT crashes at its PUSH, address 3 | read the register list `self.registers` | high; not executed | Execution.PushPopCrashesAsWritten | Instructions.PushWritesStack |

=== FILE: cpu.dfy ===
/**
  The `CPU` class: registers and RAM are arrays updated in place, and every
  method is proved to do to them what the functions of `Machine` and `Loader`
  say.
*/
module Ls8 {
  import opened Wrappers
  import Loader
  import Machine

  /** Where the loop stands after a call: still going, ended at HLT, or ended by an exception. */
  datatype Status = Continuing | Stopped | Crashed

  class Cpu {
    var registers: array<int>
    var ram: array<int>
    var pc: int
    var flag: Machine.Flags
    /** The values PRN has printed, oldest first. */
    var output: seq<int>

    ghost predicate Valid()
      reads this
    {
      registers.Length == Machine.REGISTER_COUNT && ram.Length == Loader.RAM_SIZE && registers != ram
    }

    /** The machine state the object holds. */
    ghost function Snapshot(): (s: Machine.State)
      reads this, registers, ram
      ensures Valid() ==> Machine.WellFormed(s)
    {
      Machine.State(registers[..], ram[..], pc, flag, output)
    }

    /** `CPU.__init__`: zeroed registers and RAM, the stack pointer at 0xF4, no flags. */
    constructor ()
      ensures Valid() && fresh(registers) && fresh(ram)
      ensures Snapshot() == Machine.Init()
    {
      var regs := new int[Machine.REGISTER_COUNT](_ => 0);
      regs[Machine.SP] := Machine.STACK_TOP;
      registers := regs;
      ram := new int[Loader.RAM_SIZE](_ => 0);
      pc := 0;
      flag := Machine.NoFlags;
      output := [];
    }

    /**
      `CPU.load` on the lines of the program text. On an error the source
      aborts, so RAM is then left as far as the loop got.
    */
    method Load(lines: seq<string>) returns (error: Option<Loader.LoadError>)
      requires Valid()
      modifies ram
      ensures Valid()
      ensures var r := Loader.LoadFrom(old(ram[..]), lines, 0);
        (r.Ok? ==> error == None && ram[..] == r.value) &&
        (r.Err? ==> error == Some(r.error))
    {
      var address := 0;
      for i := 0 to |lines|
        invariant address <= Loader.RAM_SIZE
        invariant Loader.LoadFrom(old(ram[..]), lines, 0) == Loader.LoadFrom(ram[..], lines[i..], address)
      {
        assert lines[i..][0] == lines[i] && lines[i..][1..] == lines[i + 1..];
        var line := Loader.Clean(lines[i]);
        if line == [] {
          continue;
        }
        var value := Loader.ParseBinary(line);
        if value.None? {
          return Some(Loader.BadLiteral(line));
        }
        if address >= Loader.RAM_SIZE {
          return Some(Loader.MemoryFull);
        }
        ram[address] := value.value;
        address := address + 1;
      }
      assert lines[|lines|..] == [];
      return None;
    }

    /** `ram_read`: None is the IndexError of an address outside RAM. */
    function RamRead(location: int): (r: Option<int>)
      requires Valid()
      reads this, ram
      ensures r.Some? <==> Machine.InRam(location)
      ensures r.Some? ==> r.value == ram[location]
    {
      if Machine.InRam(location) then Some(ram[location]) else None
    }

    /** `ram_write`: stores one cell, or fails on an address outside RAM. */
    method RamWrite(location: int, value: int) returns (ok: bool)
      requires Valid()
      modifies ram
      ensures Valid()
      ensures ok <==> Machine.InRam(location)
      ensures ok ==> RamRead(location) == Some(value)
      ensures forall i :: 0 <= i < Loader.RAM_SIZE && i != location ==> ram[i] == old(ram[i])
    {
      ok := Machine.InRam(location);
      if ok {
        ram[location] := value;
      }
    }

    /** `alu`: on success the registers and flags are those `Machine.Alu` gives; on failure nothing changes. */
    method Alu(op: string, regA: int, regB: int) returns (ok: bool)
      requires Valid()
      modifies registers, this`flag
      ensures Valid()
      ensures var r := Machine.Alu(op, old(registers[..]), old(flag), regA, regB);
        ok == r.Some? &&
        (ok ==> registers[..] == r.value.registers && flag == r.value.flag) &&
        (!ok ==> registers[..] == old(registers[..]) && flag == old(flag))
    {
      if !(op == "ADD" || op == "MUL" || op == "CMP") {
        return false;
      }
      if !Machine.InRegisters(regA) || !Machine.InRegisters(regB) {
        return false;
      }
      if op == "ADD" {
        registers[regA] := registers[regA] + registers[regB];
      } else if op == "MUL" {
        registers[regA] := registers[regA] * registers[regB];
      } else {
        var x, y := registers[regA], registers[regB];
        flag := Machine.Compared(x == y, x > y, x < y);
      }
      return true;
    }

    /**
      One pass of the loop in `run`. Every exception of the source is raised
      before anything is written, so a crash leaves the state as it was.
    */
    method Step() returns (status: Status)
      requires Valid()
      modifies this, registers, ram
      ensures Valid() && registers == old(registers) && ram == old(ram)
      ensures match Machine.Step(old(Snapshot()))
        case Running(t) => status == Continuing && Snapshot() == t
        case Halted(t) => status == Stopped && Snapshot() == t
        case Fault => status == Crashed && Snapshot() == old(Snapshot())
    {
      if !Machine.InRam(pc) {
        return Crashed;
      }
      var op := Machine.Decode(ram[pc]);
      if op.None? {
        // the "unknown command" report
        pc := pc + 1;
        return Continuing;
      }
      match op.value
      case Ldi =>
        if !Machine.InRam(pc + 2) {
          return Crashed;
        }
        var reg, val := ram[pc + 1], ram[pc + 2];
        if !Machine.InRegisters(reg) {
          return Crashed;
        }
        registers[reg] := val;
        pc := pc + 3;
        return Continuing;
      case Prn =>
        if !Machine.InRam(pc + 1) || !Machine.InRegisters(ram[pc + 1]) {
          return Crashed;
        }
        output := output + [registers[ram[pc + 1]]];
        pc := pc + 2;
        return Continuing;
      case Mul =>
        status := AluStep(op.value);
      case Cmp =>
        status := AluStep(op.value);
      case Push =>
        if !Machine.InRam(pc + 1) || !Machine.InRegisters(ram[pc + 1]) {
          return Crashed;
        }
        var val, sp := registers[ram[pc + 1]], registers[Machine.SP];
        if !Machine.InRam(sp) {
          return Crashed;
        }
        ram[sp] := val;
        registers[Machine.SP] := registers[Machine.SP] - 1;
        pc := pc + 2;
        return Continuing;
      case Pop =>
        if !Machine.InRam(pc + 1) {
          return Crashed;
        }
        var reg, sp := ram[pc + 1], registers[Machine.SP];
        if !Machine.InRam(sp) || !Machine.InRegisters(reg) {
          return Crashed;
        }
        registers[reg] := ram[sp];
        registers[Machine.SP] := registers[Machine.SP] + 1;
        pc := pc + 2;
        return Continuing;
      case Jmp =>
        status := Jump();
      case Jeq =>
        if flag.NoFlags? {
          // the KeyError on flag['E'] lands in the unknown-command handler
          pc := pc + 1;
          return Continuing;
        }
        if flag.e {
          status := Jump();
        } else {
          pc := pc + 2;
          return Continuing;
        }
      case Jne =>
        if flag.NoFlags? {
          pc := pc + 1;
          return Continuing;
        }
        if !flag.e {
          status := Jump();
        } else {
          pc := pc + 2;
          return Continuing;
        }
      case Hlt =>
        return Stopped;
      case St =>
        return Continuing;
    }

    /** The MUL and CMP case of `Step`. */
    method AluStep(op: Machine.Op) returns (status: Status)
      requires Valid() && Machine.InRam(pc) && (op == Machine.Mul || op == Machine.Cmp)
      modifies this, registers
      ensures Valid() && registers == old(registers) && ram == old(ram)
      ensures match Machine.AluStep(old(Snapshot()), op)
        case Running(t) => status == Continuing && Snapshot() == t
        case Halted(t) => false
        case Fault => status == Crashed && Snapshot() == old(Snapshot())
    {
      if !Machine.InRam(pc + 2) {
        return Crashed;
      }
      var ok := Alu(Machine.Mnemonic(op), ram[pc + 1], ram[pc + 2]);
      if !ok {
        return Crashed;
      }
      pc := pc + 3;
      return Continuing;
    }

    /** The taken case of JMP, JEQ and JNE. */
    method Jump() returns (status: Status)
      requires Valid() && Machine.InRam(pc)
      modifies this`pc
      ensures match Machine.Jump(old(Snapshot()))
        case Running(t) => status == Continuing && Snapshot() == t
        case Halted(t) => false
        case Fault => status == Crashed && Snapshot() == old(Snapshot())
    {
      if !Machine.InRam(pc + 1) || !Machine.InRegisters(ram[pc + 1]) {
        return Crashed;
      }
      pc := registers[ram[pc + 1]];
      return Continuing;
    }

    /** `run` for at most `fuel` passes of its loop. */
    method Run(fuel: nat) returns (status: Status)
      requires Valid()
      modifies this, registers, ram
      ensures Valid() && registers == old(registers) && ram == old(ram)
      ensures match Machine.Run(old(Snapshot()), fuel)
        case Finished(t) => status == Stopped && Snapshot() == t
        case Crashed(t) => status == Crashed && Snapshot() == t
        case OutOfFuel(t) => status == Continuing && Snapshot() == t
    {
      status := Continuing;
      var remaining := fuel;
      while remaining > 0 && status == Continuing
        invariant Valid() && registers == old(registers) && ram == old(ram)
        invariant status == Continuing ==> Machine.Run(old(Snapshot()), fuel) == Machine.Run(Snapshot(), remaining)
        invariant status == Stopped ==> Machine.Run(old(Snapshot()), fuel) == Machine.Finished(Snapshot())
        invariant status == Crashed ==> Machine.Run(old(Snapshot()), fuel) == Machine.Crashed(Snapshot())
        decreases remaining
      {
        ghost var before := Snapshot();
        status := Step();
        remaining := remaining - 1;
        assert Machine.Run(before, remaining + 1) == match Machine.Step(before)
          case Running(t) => Machine.Run(t, remaining)
          case Halted(t) => Machine.Finished(t)
          case Fault => Machine.Crashed(before);
      }
    }
  }
}

=== FILE: execution.dfy ===
/** Whole runs of the LS8 machine: how `Run` composes, and two programs run end to end. */
module Execution {
  import opened Wrappers
  import opened Machine
  import Loader
  import Instructions

  /** Running for `a + b` steps is running for `a` steps and then, if still running, for `b` more. */
  lemma {:induction false} RunSplits(s: State, a: nat, b: nat)
    requires WellFormed(s)
    ensures Run(s, a + b) == if Run(s, a).OutOfFuel? then Run(Run(s, a).state, b) else Run(s, a)
    decreases a
  {
    if a > 0 {
      var r := Step(s);
      if r.Running? {
        RunSplits(r.state, a - 1, b);
        assert Run(s, a + b) == Run(r.state, a - 1 + b);
        assert Run(s, a) == Run(r.state, a - 1);
      }
    }
  }

  /** Once a run has halted or crashed, more fuel changes nothing. */
  lemma RunSettles(s: State, fuel: nat, more: nat)
    requires WellFormed(s) && !Run(s, fuel).OutOfFuel?
    ensures Run(s, fuel + more) == Run(s, fuel)
  {
    RunSplits(s, fuel, more);
  }

  /** HLT at the PC ends a run at once, in the state it found. */
  lemma HltEndsRun(s: State, fuel: nat)
    requires Instructions.At(s, Hlt) && fuel > 0
    ensures Run(s, fuel) == Finished(s)
  {
  }

  /** ST at the PC makes the loop spin: no amount of fuel brings the run to an end. */
  lemma {:induction false} StSpinsForever(s: State, fuel: nat)
    requires Instructions.At(s, St)
    ensures Run(s, fuel) == OutOfFuel(s)
    decreases fuel
  {
    if fuel > 0 {
      Instructions.StDoesNothing(s);
      StSpinsForever(s, fuel - 1);
    }
  }

  /** LDI R0,8 / PRN R0 / HLT as program text, with a comment line and a blank line. */
  const PRINT_EIGHT: seq<string> :=
    ["10000010", "00000000", "00001000", "# print register 0", "01000111", "00000000", "", "00000001"]

  /** The comment line and the blank line take no address; the six literals are kept in order. */
  lemma PrintEightKept(lines: seq<string>)
    requires lines == PRINT_EIGHT
    ensures Loader.Kept(lines) == [lines[0], lines[1], lines[2], lines[4], lines[5], lines[7]]
  {
    PrintEightLiterals(lines);
    PrintEightSkipped(lines);
    KeptOfEight(lines);
    LiteralsOfEight(lines);
  }

  lemma PrintEightLiterals(lines: seq<string>)
    requires lines == PRINT_EIGHT
    ensures Loader.Literal(lines[0]) && Loader.Literal(lines[1]) && Loader.Literal(lines[2])
    ensures Loader.Literal(lines[4]) && Loader.Literal(lines[5]) && Loader.Literal(lines[7])
  {
    assert Loader.Literal(lines[0]);
    assert Loader.Literal(lines[1]);
    assert Loader.Literal(lines[2]);
    assert Loader.Literal(lines[4]);
    assert Loader.Literal(lines[5]);
    assert Loader.Literal(lines[7]);
  }

  lemma PrintEightSkipped(lines: seq<string>)
    requires lines == PRINT_EIGHT
    ensures Loader.Skipped(lines[3]) && Loader.Skipped(lines[6])
  {
    assert Loader.Skipped(lines[3]);
    assert Loader.Skipped(lines[6]);
  }

  lemma KeptOfEight(lines: seq<string>)
    requires |lines| == 8
    requires Loader.Literal(lines[0]) && Loader.Literal(lines[1]) && Loader.Literal(lines[2])
    requires Loader.Skipped(lines[3]) && Loader.Literal(lines[4]) && Loader.Literal(lines[5])
    requires Loader.Skipped(lines[6]) && Loader.Literal(lines[7])
    ensures Loader.Kept(lines) == Loader.Literals(lines)
  {
    forall k | 0 <= k < |lines|
      ensures Loader.Literal(lines[k]) || Loader.Skipped(lines[k])
    {
      if k == 3 || k == 6 {
        assert Loader.Skipped(lines[k]);
      } else {
        assert Loader.Literal(lines[k]);
      }
    }
    Loader.KeptLiterals(lines);
  }

  lemma LiteralsOfEight(lines: seq<string>)
    requires |lines| == 8
    requires Loader.Literal(lines[0]) && Loader.Literal(lines[1]) && Loader.Literal(lines[2])
    requires Loader.Skipped(lines[3]) && Loader.Literal(lines[4]) && Loader.Literal(lines[5])
    requires Loader.Skipped(lines[6]) && Loader.Literal(lines[7])
    ensures Loader.Literals(lines) == [lines[0], lines[1], lines[2], lines[4], lines[5], lines[7]]
  {
    Loader.SkippedIsNotLiteral(lines[3]);
    Loader.SkippedIsNotLiteral(lines[6]);
    assert lines[7..][1..] == [] && lines[6..][1..] == lines[7..];
    assert lines[5..][1..] == lines[6..] && lines[4..][1..] == lines[5..] && lines[3..][1..] == lines[4..];
    assert lines[2..][1..] == lines[3..] && lines[1..][1..] == lines[2..];
    assert lines[7..] == [lines[7]] && lines[6..][0] == lines[6] && lines[4..][0] == lines[4];
    assert Loader.Literals(lines[7..]) == [lines[7]];
    assert Loader.Literals(lines[6..]) == [lines[7]];
    assert Loader.Literals(lines[4..]) == [lines[4], lines[5], lines[7]];
    assert Loader.Literals(lines[2..]) == [lines[2], lines[4], lines[5], lines[7]];
  }

  /** A program whose kept lines denote `bytes` boots with those bytes from address 0 and zeros after them. */
  lemma BootPlacesBytes(lines: seq<string>, bytes: seq<nat>)
    requires |Loader.Kept(lines)| == |bytes| <= Loader.RAM_SIZE
    requires forall k :: 0 <= k < |bytes| ==> Loader.ParseBinary(Loader.Kept(lines)[k]) == Some(bytes[k])
    ensures Boot(lines).Ok?
    ensures Boot(lines).value.ram[..|bytes|] == bytes
    ensures forall j :: |bytes| <= j < Loader.RAM_SIZE ==> Boot(lines).value.ram[j] == 0
  {
    Loader.LoadSucceedsIff(Init().ram, lines, 0);
    Loader.LoadPlacesKeptLines(Init().ram, lines, 0);
  }

  lemma PrintEightBytes(kept: seq<string>)
    requires kept == ["10000010", "00000000", "00001000", "01000111", "00000000", "00000001"]
    ensures forall k :: 0 <= k < 6 ==> Loader.ParseBinary(kept[k]) == Some([0x82, 0, 8, 0x47, 0, 1][k])
  {
    Loader.EightDigitValue(kept[0]);
    Loader.EightDigitValue(kept[1]);
    Loader.EightDigitValue(kept[2]);
    Loader.EightDigitValue(kept[3]);
    Loader.EightDigitValue(kept[5]);
  }

  /** The literals fill addresses 0 to 5 with the bytes they denote. */
  lemma PrintEightLoads(lines: seq<string>)
    requires lines == PRINT_EIGHT
    ensures Boot(lines).Ok?
    ensures Boot(lines).value.ram[..6] == [0x82, 0, 8, 0x47, 0, 1]
  {
    PrintEightKept(lines);
    PrintEightBytes(Loader.Kept(lines));
    BootPlacesBytes(lines, [0x82, 0, 8, 0x47, 0, 1]);
  }

  /** From those six bytes the program prints 8 and halts after three steps, at address 5. */
  lemma PrintEightRuns(s: State)
    requires WellFormed(s) && s.ram[..6] == [0x82, 0, 8, 0x47, 0, 1] && s.pc == 0
    ensures Run(s, 3).Finished?
    ensures Run(s, 3).state.output == s.output + [8] && Run(s, 3).state.pc == 5
  {
    assert s.ram[0] == 0x82 && s.ram[1] == 0 && s.ram[2] == 8;
    Instructions.LdiLoadsRegister(s);
    var s1 := Step(s).state;
    assert s1.ram[3] == 0x47 && s1.ram[4] == 0 && s1.registers[0] == 8;
    Instructions.PrnPrintsRegister(s1);
    var s2 := Step(s1).state;
    assert s2.ram[5] == 1;
    Instructions.HltHalts(s2);
  }

  /** The whole scenario: load the text into a fresh CPU, run it, and see 8 printed. */
  lemma PrintEightEndToEnd(lines: seq<string>)
    requires lines == PRINT_EIGHT
    ensures Boot(lines).Ok?
    ensures var r := Run(Boot(lines).value, 3); r.Finished? && r.state.output == [8]
  {
    PrintEightLoads(lines);
    PrintEightRuns(Boot(lines).value);
  }

  /** LDI R0,5 / PUSH R0 / POP R1 / HLT. */
  const PUSH_POP: seq<int> := [0x82, 0, 5, 0x45, 0, 0x46, 1, 0x01]

  /**
    PUSH R0 then POP R1 from a fresh stack: the stack pointer comes back to
    0xF4 and R0 keeps 5, but R1 receives the untouched cell 0xF3, not the 5
    that PUSH wrote at 0xF4.
  */
  lemma PushPopRun(s: State)
    requires WellFormed(s) && s.ram[..8] == PUSH_POP && s.pc == 0
    requires s.registers[SP] == STACK_TOP && s.ram[STACK_TOP - 1] == 0
    ensures Run(s, 4).Finished?
    ensures var t := Run(s, 4).state;
      t.registers[0] == 5 && t.registers[1] == 0 && t.registers[SP] == STACK_TOP && t.ram[STACK_TOP] == 5
  {
    assert s.ram[0] == 0x82 && s.ram[1] == 0 && s.ram[2] == 5;
    Instructions.LdiLoadsRegister(s);
    var s1 := Step(s).state;
    assert s1.ram[3] == 0x45 && s1.ram[4] == 0 && s1.registers[0] == 5;
    Instructions.PushWritesStack(s1);
    var s2 := Step(s1).state;
    assert s2.ram[5] == 0x46 && s2.ram[6] == 1 && s2.registers[SP] == STACK_TOP - 1;
    Instructions.PopReadsStack(s2);
    var s3 := Step(s2).state;
    assert s3.ram[7] == 1;
    Instructions.HltHalts(s3);
  }

  /**
    `CPU.run` as the source has it: PUSH and POP read `self.reg`, an attribute
    no method assigns, so both end the run with an uncaught AttributeError.
  */
  function StepAsWritten(s: State): (r: StepResult)
    requires WellFormed(s)
    ensures r.Fault? || r == Step(s)
  {
    if InRam(s.pc) && (s.ram[s.pc] == OpCode(Push) || s.ram[s.pc] == OpCode(Pop)) then Fault else Step(s)
  }

  /**
    Every PUSH or POP that `Step` carries out crashes the source's loop, and
    on every other byte the two agree.
  */
  lemma StackOpsFaultAsWritten(s: State)
    requires WellFormed(s)
    ensures (Instructions.At(s, Push) || Instructions.At(s, Pop)) ==> StepAsWritten(s) == Fault
    ensures !(Instructions.At(s, Push) || Instructions.At(s, Pop)) ==> StepAsWritten(s) == Step(s)
  {
  }

  /** The push of the PUSH_POP program is one such step: `Step` runs it and the source crashes on it. */
  lemma PushPopCrashesAsWritten(s: State)
    requires WellFormed(s) && s.ram[..8] == PUSH_POP && s.pc == 3
    requires s.registers[SP] == STACK_TOP
    ensures Step(s).Running? && StepAsWritten(s) == Fault
  {
    assert s.ram[3] == 0x45 && s.ram[4] == 0;
    Instructions.PushWritesStack(s);
  }
}

=== FILE: instructions.dfy ===
/** What one step does for each instruction of the LS8 opcode table. */
module Instructions {
  import opened Wrappers
  import opened Machine
  import Loader

  /** `s` is about to execute the instruction `op`. */
  predicate At(s: State, op: Op) {
    WellFormed(s) && InRam(s.pc) && s.ram[s.pc] == OpCode(op)
  }

  /** LDI sets register `ram[pc+1]` to `ram[pc+2]`, nothing else but the PC, which moves by 3. */
  lemma LdiLoadsRegister(s: State)
    requires At(s, Ldi)
    ensures Step(s).Running? <==> InRam(s.pc + 2) && InRegisters(s.ram[s.pc + 1])
    ensures Step(s).Running? ==>
      var t, reg := Step(s).state, s.ram[s.pc + 1];
      t == s.(registers := t.registers, pc := s.pc + 3) &&
      t.registers[reg] == s.ram[s.pc + 2] &&
      forall i :: 0 <= i < REGISTER_COUNT && i != reg ==> t.registers[i] == s.registers[i]
  {
  }

  /** PRN appends the value of register `ram[pc+1]` to the output and moves the PC by 2. */
  lemma PrnPrintsRegister(s: State)
    requires At(s, Prn)
    ensures Step(s).Running? <==> InRam(s.pc + 1) && InRegisters(s.ram[s.pc + 1])
    ensures Step(s).Running? ==>
      Step(s).state == s.(output := s.output + [s.registers[s.ram[s.pc + 1]]], pc := s.pc + 2)
  {
  }

  /** MUL replaces register a by the unbounded product of registers a and b, and moves the PC by 3. */
  lemma MulMultiplies(s: State)
    requires At(s, Mul)
    ensures Step(s).Running? <==> InRam(s.pc + 2) && InRegisters(s.ram[s.pc + 1]) && InRegisters(s.ram[s.pc + 2])
    ensures Step(s).Running? ==>
      var t, a, b := Step(s).state, s.ram[s.pc + 1], s.ram[s.pc + 2];
      t == s.(registers := t.registers, pc := s.pc + 3) &&
      t.registers[a] == s.registers[a] * s.registers[b] &&
      forall i :: 0 <= i < REGISTER_COUNT && i != a ==> t.registers[i] == s.registers[i]
  {
  }

  /**
    CMP sets exactly one of E, G and L, according to how registers a and b
    compare, and changes nothing else but the PC, which moves by 3.
  */
  lemma CmpSetsOneFlag(s: State)
    requires At(s, Cmp)
    ensures Step(s).Running? <==> InRam(s.pc + 2) && InRegisters(s.ram[s.pc + 1]) && InRegisters(s.ram[s.pc + 2])
    ensures Step(s).Running? ==>
      var t, x, y := Step(s).state, s.registers[s.ram[s.pc + 1]], s.registers[s.ram[s.pc + 2]];
      t == s.(flag := t.flag, pc := s.pc + 3) &&
      t.flag.Compared? && ValidFlags(t.flag) &&
      (t.flag.e <==> x == y) && (t.flag.g <==> x > y) && (t.flag.l <==> x < y)
  {
  }

  /** JEQ after a CMP: to the value of register `ram[pc+1]` if E is set, else 2 bytes on. */
  lemma JeqJumpsIffEqual(s: State)
    requires At(s, Jeq) && s.flag.Compared?
    ensures !s.flag.e ==> Step(s) == Running(s.(pc := s.pc + 2))
    ensures s.flag.e ==>
      if InRam(s.pc + 1) && InRegisters(s.ram[s.pc + 1])
      then Step(s) == Running(s.(pc := s.registers[s.ram[s.pc + 1]]))
      else Step(s) == Fault
  {
  }

  /** JNE after a CMP: to the value of register `ram[pc+1]` if E is clear, else 2 bytes on. */
  lemma JneJumpsIffNotEqual(s: State)
    requires At(s, Jne) && s.flag.Compared?
    ensures s.flag.e ==> Step(s) == Running(s.(pc := s.pc + 2))
    ensures !s.flag.e ==>
      if InRam(s.pc + 1) && InRegisters(s.ram[s.pc + 1])
      then Step(s) == Running(s.(pc := s.registers[s.ram[s.pc + 1]]))
      else Step(s) == Fault
  {
  }

  /** JMP always goes to the value of register `ram[pc+1]`. */
  lemma JmpJumps(s: State)
    requires At(s, Jmp)
    ensures Step(s).Running? <==> InRam(s.pc + 1) && InRegisters(s.ram[s.pc + 1])
    ensures Step(s).Running? ==> Step(s) == Running(s.(pc := s.registers[s.ram[s.pc + 1]]))
  {
  }

  /** A fetch from outside RAM raises an IndexError the loop does not catch: the run ends. */
  lemma FetchOutsideRamFaults(s: State)
    requires WellFormed(s) && !InRam(s.pc)
    ensures Step(s) == Fault
  {
  }

  /** A byte the table does not know is skipped: only the PC changes, by 1. */
  lemma UnknownByteSkipped(s: State)
    requires WellFormed(s) && InRam(s.pc) && Decode(s.ram[s.pc]).None?
    ensures Step(s) == Running(s.(pc := s.pc + 1))
  {
  }

  /** JEQ or JNE before any CMP: the missing flag is handled like an unknown byte. */
  lemma JumpBeforeCmpSkipped(s: State)
    requires (At(s, Jeq) || At(s, Jne)) && s.flag == NoFlags
    ensures Step(s) == Running(s.(pc := s.pc + 1))
  {
  }

  /** PUSH writes register `ram[pc+1]` at the stack pointer, and only there, then decrements it. */
  lemma PushWritesStack(s: State)
    requires At(s, Push)
    ensures Step(s).Running? <==>
      InRam(s.pc + 1) && InRegisters(s.ram[s.pc + 1]) && InRam(s.registers[SP])
    ensures Step(s).Running? ==>
      var t, sp := Step(s).state, s.registers[SP];
      t == s.(registers := t.registers, ram := t.ram, pc := s.pc + 2) &&
      t.ram[sp] == s.registers[s.ram[s.pc + 1]] &&
      (forall i :: 0 <= i < Loader.RAM_SIZE && i != sp ==> t.ram[i] == s.ram[i]) &&
      t.registers[SP] == sp - 1 &&
      (forall i :: 0 <= i < SP ==> t.registers[i] == s.registers[i])
  {
  }

  /**
    POP copies the cell at the stack pointer into register `ram[pc+1]` and then
    increments the stack pointer; popping into the stack pointer itself leaves
    it one above the popped value. RAM is unchanged.
  */
  lemma PopReadsStack(s: State)
    requires At(s, Pop)
    ensures Step(s).Running? <==>
      InRam(s.pc + 1) && InRegisters(s.ram[s.pc + 1]) && InRam(s.registers[SP])
    ensures Step(s).Running? ==>
      var t, sp, reg := Step(s).state, s.registers[SP], s.ram[s.pc + 1];
      t == s.(registers := t.registers, pc := s.pc + 2) &&
      (reg != SP ==> t.registers[reg] == s.ram[sp] && t.registers[SP] == sp + 1) &&
      (reg == SP ==> t.registers[SP] == s.ram[sp] + 1) &&
      (forall i :: 0 <= i < SP && i != reg ==> t.registers[i] == s.registers[i])
  {
  }

  /**
    A PUSH followed by a POP into a register other than the stack pointer
    restores the stack pointer. The popped value is the cell one below the one
    PUSH wrote, so the value does not make the round trip.
  */
  lemma {:induction false} PushThenPopRestoresSp(s: State)
    requires At(s, Push) && Step(s).Running?
    requires At(Step(s).state, Pop) && Step(Step(s).state).Running?
    requires Step(s).state.ram[Step(s).state.pc + 1] != SP
    ensures var t, u := Step(s).state, Step(Step(s).state).state;
      u.registers[SP] == s.registers[SP] &&
      u.registers[t.ram[t.pc + 1]] == s.ram[s.registers[SP] - 1] &&
      u.ram == t.ram && u.pc == s.pc + 4
  {
    PushWritesStack(s);
    PopReadsStack(Step(s).state);
  }

  /** HLT ends the run and changes nothing, not even the PC. */
  lemma HltHalts(s: State)
    requires At(s, Hlt)
    ensures Step(s) == Halted(s)
  {
  }

  /** ST is in the table but has no case in the loop: a step on it changes nothing. */
  lemma StDoesNothing(s: State)
    requires At(s, St)
    ensures Step(s) == Running(s)
  {
  }

  /**
    The fixed-width instructions move the PC by the operand count the top two
    bits of their opcode encode, plus one.
  */
  lemma FixedWidthAdvance(s: State, op: Op)
    requires op in {Ldi, Prn, Mul, Cmp, Push, Pop}
    requires At(s, op) && Step(s).Running?
    ensures Step(s).state.pc == s.pc + s.ram[s.pc] / 64 + 1
  {
  }

  /** No byte of the table reaches the ALU's ADD case. */
  lemma AddNeverDispatched(ir: int)
    requires Decode(ir).Some?
    ensures Mnemonic(Decode(ir).value) != "ADD"
  {
  }
}

=== FILE: loader.dfy ===
/**
  The program loader of the LS8 CPU (`CPU.load`): every line of the program
  text loses its `#` comment and its surrounding whitespace, blank lines are
  skipped, and every remaining line is a base-2 literal written to the next
  RAM address, starting at 0.
*/
module Loader {
  import opened Wrappers

  const RAM_SIZE: nat := 256

  /** Why loading stops: `int(line, 2)` rejects the text, or the address runs past RAM. */
  datatype LoadError = BadLiteral(text: string) | MemoryFull

  /** The whitespace that `str.strip()` removes, restricted to ASCII. */
  predicate IsSpace(c: char) {
    c == ' ' || 9 <= c as int <= 13 || 28 <= c as int <= 31
  }

  /** `line.split('#')[0]`. */
  function StripComment(line: string): string {
    if line == [] || line[0] == '#' then [] else [line[0]] + StripComment(line[1..])
  }

  /** The comment is cut at the first `#`: what is kept is the longest prefix without one. */
  lemma {:induction false} StripCommentCutsAtHash(line: string)
    ensures var r := StripComment(line);
      '#' !in r && r <= line && (|r| < |line| ==> line[|r|] == '#')
  {
    if line != [] && line[0] != '#' {
      StripCommentCutsAtHash(line[1..]);
    }
  }

  /** How many whitespace characters the input starts with. */
  function LeadingSpaces(s: string): (n: nat)
    ensures n <= |s|
  {
    if s != [] && IsSpace(s[0]) then 1 + LeadingSpaces(s[1..]) else 0
  }

  /** The leading run counted is all whitespace and is followed by no more. */
  lemma {:induction false} LeadingSpacesAreSpaces(s: string)
    ensures var n := LeadingSpaces(s);
      (forall i :: 0 <= i < n ==> IsSpace(s[i])) && (n == |s| || !IsSpace(s[n]))
  {
    if s != [] && IsSpace(s[0]) {
      LeadingSpacesAreSpaces(s[1..]);
    }
  }

  /** How many whitespace characters the input ends with. */
  function TrailingSpaces(s: string): (n: nat)
    ensures n <= |s|
  {
    if s != [] && IsSpace(s[|s| - 1]) then 1 + TrailingSpaces(s[..|s| - 1]) else 0
  }

  /** The trailing run counted is all whitespace and is preceded by no more. */
  lemma {:induction false} TrailingSpacesAreSpaces(s: string)
    ensures var n := TrailingSpaces(s);
      (forall i :: |s| - n <= i < |s| ==> IsSpace(s[i])) && (n == |s| || !IsSpace(s[|s| - n - 1]))
  {
    if s != [] && IsSpace(s[|s| - 1]) {
      TrailingSpacesAreSpaces(s[..|s| - 1]);
    }
  }

  /** `str.strip()`: the input without its leading and trailing whitespace. */
  function Strip(s: string): string {
    var t := s[LeadingSpaces(s)..];
    t[..|t| - TrailingSpaces(t)]
  }

  /** What one line of the program text holds once its comment and whitespace are gone. */
  function Clean(line: string): string {
    Strip(StripComment(line))
  }

  /** A cleaned line holds no `#` and neither starts nor ends with whitespace. */
  lemma CleanHasNoCommentOrPadding(line: string)
    ensures var r := Clean(line);
      '#' !in r && (r == [] || (!IsSpace(r[0]) && !IsSpace(r[|r| - 1])))
  {
    var c := StripComment(line);
    StripCommentCutsAtHash(line);
    LeadingSpacesAreSpaces(c);
    var t := c[LeadingSpaces(c)..];
    TrailingSpacesAreSpaces(t);
    assert forall ch :: ch in Clean(line) ==> ch in c;
  }

  predicate IsBinary(s: string) {
    forall i :: 0 <= i < |s| ==> s[i] == '0' || s[i] == '1'
  }

  function Pow2(n: nat): (r: nat)
    ensures r >= 1
  {
    if n == 0 then 1 else 2 * Pow2(n - 1)
  }

  /** The value of one binary digit. */
  function DigitValue(c: char): nat {
    if c == '1' then 1 else 0
  }

  /** The number a string of binary digits denotes, most significant digit first. */
  function BinaryValue(s: string): nat
    requires IsBinary(s)
  {
    if s == [] then 0
    else BinaryValue(s[..|s| - 1]) * 2 + DigitValue(s[|s| - 1])
  }

  /** `n` digits denote less than 2 to the `n`: 8 digits make a byte, longer lines may not. */
  lemma {:induction false} BinaryValueBound(s: string)
    requires IsBinary(s)
    ensures BinaryValue(s) < Pow2(|s|)
  {
    if s != [] {
      BinaryValueBound(s[..|s| - 1]);
    }
  }

  /**
    `int(s, 2)` on the digit strings this model admits: it fails on the empty
    string and on any character other than `0` and `1`, and it does not mask
    the value to 8 bits.
  */
  function ParseBinary(s: string): Option<nat> {
    if s != [] && IsBinary(s) then Some(BinaryValue(s)) else None
  }

  /** The shortest binary literal of a number: what an assembler writes for it. */
  function BinaryLiteral(n: nat): (r: string)
    ensures r != [] && IsBinary(r)
  {
    (if n < 2 then [] else BinaryLiteral(n / 2)) + [if n % 2 == 1 then '1' else '0']
  }

  /** The loader reads back every literal an assembler writes. */
  lemma {:induction false} ParseBinaryLiteral(n: nat)
    ensures ParseBinary(BinaryLiteral(n)) == Some(n)
  {
    var r := BinaryLiteral(n);
    if n >= 2 {
      ParseBinaryLiteral(n / 2);
      assert r[..|r| - 1] == BinaryLiteral(n / 2);
    } else {
      assert r[..|r| - 1] == [];
      assert BinaryValue(r) == BinaryValue([]) * 2 + (if r[0] == '1' then 1 else 0);
    }
  }

  /** Reading one more digit doubles the value read so far and adds the digit. */
  lemma BinaryValuePrefix(s: string, k: nat)
    requires IsBinary(s) && 0 < k <= |s|
    ensures IsBinary(s[..k]) && IsBinary(s[..k - 1])
    ensures BinaryValue(s[..k]) == 2 * BinaryValue(s[..k - 1]) + DigitValue(s[k - 1])
  {
    assert s[..k][..k - 1] == s[..k - 1];
  }

  /** An 8-digit literal is the byte its digits denote, most significant first. */
  lemma EightDigitValue(s: string)
    requires |s| == 8 && IsBinary(s)
    ensures BinaryValue(s) ==
      128 * DigitValue(s[0]) + 64 * DigitValue(s[1]) + 32 * DigitValue(s[2]) + 16 * DigitValue(s[3]) +
      8 * DigitValue(s[4]) + 4 * DigitValue(s[5]) + 2 * DigitValue(s[6]) + DigitValue(s[7])
  {
    assert s[..8] == s;
    BinaryValuePrefix(s, 8);
    BinaryValuePrefix(s, 7);
    BinaryValuePrefix(s, 6);
    BinaryValuePrefix(s, 5);
    BinaryValuePrefix(s, 4);
    BinaryValuePrefix(s, 3);
    BinaryValuePrefix(s, 2);
    BinaryValuePrefix(s, 1);
  }

  /** A bare literal line is kept as it is. */
  lemma CleanLiteral(s: string)
    requires s != [] && IsBinary(s)
    ensures Clean(s) == s
  {
    StripCommentCutsAtHash(s);
    assert StripComment(s) == s;
    LeadingSpacesAreSpaces(s);
    TrailingSpacesAreSpaces(s);
    assert LeadingSpaces(s) == 0 && TrailingSpaces(s) == 0;
  }

  /** The lines that take up an address: the non-blank lines, cleaned, in order. */
  function Kept(lines: seq<string>): (r: seq<string>)
    ensures |r| <= |lines|
  {
    if lines == [] then []
    else if Clean(lines[0]) == [] then Kept(lines[1..])
    else [Clean(lines[0])] + Kept(lines[1..])
  }

  /** Every kept line is non-empty and free of comments. */
  lemma {:induction false} KeptLinesAreClean(lines: seq<string>)
    ensures forall k :: 0 <= k < |Kept(lines)| ==> Kept(lines)[k] != [] && '#' !in Kept(lines)[k]
  {
    if lines != [] {
      KeptLinesAreClean(lines[1..]);
      CleanHasNoCommentOrPadding(lines[0]);
    }
  }

  /**
    A line that holds nothing but whitespace before its first `#`: a blank
    line, a comment line, or an indented comment line.
  */
  predicate Skipped(line: string) {
    var c := StripComment(line);
    forall i :: 0 <= i < |c| ==> IsSpace(c[i])
  }

  /** A line that is, as a whole, a literal `int(line, 2)` accepts. */
  predicate Literal(line: string) {
    ParseBinary(line).Some?
  }

  /** A line takes no address exactly when it is skipped. */
  lemma SkippedIsDropped(line: string)
    ensures Clean(line) == [] <==> Skipped(line)
  {
    var c := StripComment(line);
    LeadingSpacesAreSpaces(c);
    if !Skipped(line) {
      var n := LeadingSpaces(c);
      assert n < |c|;
      TrailingSpacesAreSpaces(c[n..]);
      assert c[n..][0] == c[n];
    }
  }

  lemma SkippedIsNotLiteral(line: string)
    requires Skipped(line)
    ensures !Literal(line)
  {
    if line != [] && IsBinary(line) {
      StripCommentCutsAtHash(line);
    }
  }

  /** The literal lines of a program, in order. */
  function Literals(lines: seq<string>): seq<string> {
    if lines == [] then []
    else (if Literal(lines[0]) then [lines[0]] else []) + Literals(lines[1..])
  }

  /** From a program of literal, comment and blank lines the loader keeps exactly the literals. */
  lemma {:induction false} KeptLiterals(lines: seq<string>)
    requires forall k :: 0 <= k < |lines| ==> Literal(lines[k]) || Skipped(lines[k])
    ensures Kept(lines) == Literals(lines)
  {
    if lines != [] {
      if Literal(lines[0]) {
        CleanLiteral(lines[0]);
      } else {
        SkippedIsDropped(lines[0]);
      }
      KeptLiterals(lines[1..]);
    }
  }

  /**
    The loop of `CPU.load` from the line `lines[0]` on, with `address` the next
    address to write and `ram` the memory written so far.
  */
  function LoadFrom(ram: seq<int>, lines: seq<string>, address: nat): (r: Result<seq<int>, LoadError>)
    requires |ram| == RAM_SIZE
    ensures r.Ok? ==> |r.value| == RAM_SIZE
    decreases |lines|
  {
    if lines == [] then Ok(ram)
    else
      var line := Clean(lines[0]);
      if line == [] then LoadFrom(ram, lines[1..], address)
      else match ParseBinary(line)
        case None => Err(BadLiteral(line))
        case Some(value) =>
          if address >= RAM_SIZE then Err(MemoryFull)
          else LoadFrom(ram[address := value], lines[1..], address + 1)
  }

  /** Every kept line is a binary literal. */
  predicate AllLiterals(kept: seq<string>) {
    forall k :: 0 <= k < |kept| ==> ParseBinary(kept[k]).Some?
  }

  /** How `Kept` and `AllLiterals` look at the first line of the text. */
  lemma KeptFirst(lines: seq<string>)
    requires lines != [] && Clean(lines[0]) != []
    ensures Kept(lines) == [Clean(lines[0])] + Kept(lines[1..])
    ensures AllLiterals(Kept(lines)) <==> ParseBinary(Clean(lines[0])).Some? && AllLiterals(Kept(lines[1..]))
  {
    var kept, rest := Kept(lines), Kept(lines[1..]);
    if ParseBinary(Clean(lines[0])).Some? && AllLiterals(rest) {
      forall k | 0 <= k < |kept| ensures ParseBinary(kept[k]).Some? {
        if k > 0 { assert kept[k] == rest[k - 1]; }
      }
    }
    if AllLiterals(kept) {
      forall k | 0 <= k < |rest| ensures ParseBinary(rest[k]).Some? {
        assert rest[k] == kept[k + 1];
      }
    }
  }

  /** Loading succeeds exactly when every kept line is a literal and they all fit in RAM. */
  lemma {:induction false} LoadSucceedsIff(ram: seq<int>, lines: seq<string>, address: nat)
    requires |ram| == RAM_SIZE && address <= RAM_SIZE
    ensures LoadFrom(ram, lines, address).Ok?
        <==> AllLiterals(Kept(lines)) && address + |Kept(lines)| <= RAM_SIZE
    decreases |lines|
  {
    if lines != [] {
      var line := Clean(lines[0]);
      if line == [] {
        LoadSucceedsIff(ram, lines[1..], address);
      } else {
        KeptFirst(lines);
        if ParseBinary(line).Some? && address < RAM_SIZE {
          LoadSucceedsIff(ram[address := ParseBinary(line).value], lines[1..], address + 1);
        }
      }
    }
  }

  /**
    When loading succeeds, the k-th kept line is the value at `address + k`, and
    every other cell keeps the value it had.
  */
  lemma {:induction false} LoadPlacesKeptLines(ram: seq<int>, lines: seq<string>, address: nat)
    requires |ram| == RAM_SIZE && address <= RAM_SIZE
    requires LoadFrom(ram, lines, address).Ok?
    ensures address + |Kept(lines)| <= RAM_SIZE
    ensures forall k :: 0 <= k < |Kept(lines)| ==>
      ParseBinary(Kept(lines)[k]).Some? &&
      LoadFrom(ram, lines, address).value[address + k] == ParseBinary(Kept(lines)[k]).value
    ensures forall j :: 0 <= j < RAM_SIZE && !(address <= j < address + |Kept(lines)|) ==>
      LoadFrom(ram, lines, address).value[j] == ram[j]
    decreases |lines|
  {
    if lines != [] {
      var line := Clean(lines[0]);
      if line == [] {
        LoadPlacesKeptLines(ram, lines[1..], address);
      } else {
        KeptFirst(lines);
        var value := ParseBinary(line).value;
        var ram' := ram[address := value];
        LoadPlacesKeptLines(ram', lines[1..], address + 1);
        var kept, rest, image := Kept(lines), Kept(lines[1..]), LoadFrom(ram, lines, address).value;
        assert image == LoadFrom(ram', lines[1..], address + 1).value;
        forall k | 0 <= k < |kept|
          ensures ParseBinary(kept[k]).Some? && image[address + k] == ParseBinary(kept[k]).value
        {
          if k > 0 { assert kept[k] == rest[k - 1]; }
        }
      }
    }
  }

  /**
    When the kept lines up to the one that would land past the last address
    are all literals, loading fails with MemoryFull; the lines after that one
    are never read.
  */
  lemma {:induction false} TooManyLinesFault(ram: seq<int>, lines: seq<string>, address: nat)
    requires |ram| == RAM_SIZE && address <= RAM_SIZE
    requires address + |Kept(lines)| > RAM_SIZE
    requires forall k :: 0 <= k <= RAM_SIZE - address ==> ParseBinary(Kept(lines)[k]).Some?
    ensures LoadFrom(ram, lines, address) == Err(MemoryFull)
    decreases |lines|
  {
    var line := Clean(lines[0]);
    if line == [] {
      TooManyLinesFault(ram, lines[1..], address);
    } else {
      KeptFirst(lines);
      assert Kept(lines)[0] == line;
      if address < RAM_SIZE {
        var kept, rest := Kept(lines), Kept(lines[1..]);
        forall k | 0 <= k <= RAM_SIZE - (address + 1)
          ensures ParseBinary(rest[k]).Some?
        {
          assert rest[k] == kept[k + 1];
        }
        TooManyLinesFault(ram[address := ParseBinary(line).value], lines[1..], address + 1);
      }
    }
  }

  /**
    When the j-th kept line is the first that is not a literal and it is read
    while its address is still at most the end of RAM, loading fails with
    BadLiteral on that line: `int(line, 2)` runs before the store.
  */
  lemma {:induction false} BadLiteralFault(ram: seq<int>, lines: seq<string>, address: nat, j: nat)
    requires |ram| == RAM_SIZE && address <= RAM_SIZE
    requires j < |Kept(lines)| && address + j <= RAM_SIZE
    requires forall k :: 0 <= k < j ==> ParseBinary(Kept(lines)[k]).Some?
    requires ParseBinary(Kept(lines)[j]).None?
    ensures LoadFrom(ram, lines, address) == Err(BadLiteral(Kept(lines)[j]))
    decreases |lines|
  {
    var line := Clean(lines[0]);
    if line == [] {
      BadLiteralFault(ram, lines[1..], address, j);
    } else {
      KeptFirst(lines);
      assert Kept(lines)[0] == line;
      if j > 0 {
        var kept, rest := Kept(lines), Kept(lines[1..]);
        forall k | 0 <= k <= j - 1
          ensures rest[k] == kept[k + 1]
        {
        }
        BadLiteralFault(ram[address := ParseBinary(line).value], lines[1..], address + 1, j - 1);
      }
    }
  }
}

=== FILE: machine.dfy ===
/**
  The LS8 machine as values: its state, the opcode table, the ALU and one
  fetch-decode-execute step of `CPU.run`, with `Run` repeating steps until a
  halt, a fault or the end of the given fuel.
*/
module Machine {
  import opened Wrappers
  import Loader

  const REGISTER_COUNT: nat := 8
  /** Register 7 is the stack pointer; the source reaches it as index -1. */
  const SP: nat := 7
  const STACK_TOP: int := 0xF4

  /**
    The flag dictionary: empty until the first CMP, which sets all three keys
    `E`, `G` and `L` at once (1 as true, 0 as false).
  */
  datatype Flags = NoFlags | Compared(e: bool, g: bool, l: bool)

  /**
    The registers and RAM cells hold unbounded integers: nothing in the source
    masks them to 8 bits. `output` is the sequence of values PRN has printed.
  */
  datatype State = State(registers: seq<int>, ram: seq<int>, pc: int, flag: Flags, output: seq<int>)

  predicate WellFormed(s: State) {
    |s.registers| == REGISTER_COUNT && |s.ram| == Loader.RAM_SIZE
  }

  /** After a CMP exactly one of E, G and L is set. */
  predicate ValidFlags(f: Flags) {
    f.Compared? ==> (if f.e then 1 else 0) + (if f.g then 1 else 0) + (if f.l then 1 else 0) == 1
  }

  predicate InRam(i: int) { 0 <= i < Loader.RAM_SIZE }

  predicate InRegisters(i: int) { 0 <= i < REGISTER_COUNT }

  /** The state `CPU.__init__` builds: all zero but the stack pointer, no flags. */
  function Init(): (s: State)
    ensures WellFormed(s) && s.registers[SP] == STACK_TOP
    ensures forall i :: 0 <= i < REGISTER_COUNT && i != SP ==> s.registers[i] == 0
    ensures forall i :: 0 <= i < Loader.RAM_SIZE ==> s.ram[i] == 0
    ensures s.pc == 0 && s.flag == NoFlags && s.output == []
  {
    State(seq(REGISTER_COUNT, i => if i == SP then STACK_TOP else 0), seq(Loader.RAM_SIZE, i => 0), 0, NoFlags, [])
  }

  /** A fresh CPU after `load`: the program text is loaded into its zeroed RAM. */
  function Boot(lines: seq<string>): (r: Result<State, Loader.LoadError>)
    ensures r.Ok? ==> WellFormed(r.value) && r.value == Init().(ram := r.value.ram)
    ensures r.Ok? <==> Loader.LoadFrom(Init().ram, lines, 0).Ok?
  {
    match Loader.LoadFrom(Init().ram, lines, 0)
    case Ok(image) => Ok(Init().(ram := image))
    case Err(e) => Err(e)
  }

  /** The operations of the opcode table; ADD has an ALU case but no entry here. */
  datatype Op = Ldi | Prn | Hlt | Mul | Pop | Push | St | Cmp | Jmp | Jne | Jeq

  /** The byte each table entry is keyed by. */
  function OpCode(op: Op): int {
    match op
    case Ldi => 0x82
    case Prn => 0x47
    case Hlt => 0x01
    case Mul => 0xA2
    case Pop => 0x46
    case Push => 0x45
    case St => 0x84
    case Cmp => 0xA7
    case Jmp => 0x54
    case Jne => 0x56
    case Jeq => 0x55
  }

  /** The name the table gives each entry; the ALU is called with it. */
  function Mnemonic(op: Op): string {
    match op
    case Ldi => "LDI"
    case Prn => "PRN"
    case Hlt => "HLT"
    case Mul => "MUL"
    case Pop => "POP"
    case Push => "PUSH"
    case St => "ST"
    case Cmp => "CMP"
    case Jmp => "JMP"
    case Jne => "JNE"
    case Jeq => "JEQ"
  }

  /** The lookup `OPCODES[ir]`: None is the KeyError of an unknown byte. */
  function Decode(ir: int): (r: Option<Op>)
    ensures r.Some? ==> OpCode(r.value) == ir
    ensures r.None? ==> forall op: Op :: OpCode(op) != ir
  {
    if ir == 0x82 then Some(Ldi)
    else if ir == 0x47 then Some(Prn)
    else if ir == 0x01 then Some(Hlt)
    else if ir == 0xA2 then Some(Mul)
    else if ir == 0x46 then Some(Pop)
    else if ir == 0x45 then Some(Push)
    else if ir == 0x84 then Some(St)
    else if ir == 0xA7 then Some(Cmp)
    else if ir == 0x54 then Some(Jmp)
    else if ir == 0x56 then Some(Jne)
    else if ir == 0x55 then Some(Jeq)
    else None
  }

  /** Decoding inverts the table. */
  lemma DecodeOpCode(op: Op)
    ensures Decode(OpCode(op)) == Some(op)
  {
  }

  /** What an ALU call leaves behind. */
  datatype AluOut = AluOut(registers: seq<int>, flag: Flags)

  /**
    `CPU.alu(op, reg_a, reg_b)`: None stands for the exception it raises, on an
    operation other than ADD, MUL and CMP or on a register index out of range.
  */
  function Alu(op: string, registers: seq<int>, flag: Flags, a: int, b: int): (r: Option<AluOut>)
    requires |registers| == REGISTER_COUNT
    ensures r.Some? <==> (op == "ADD" || op == "MUL" || op == "CMP") && InRegisters(a) && InRegisters(b)
    ensures r.Some? ==> |r.value.registers| == REGISTER_COUNT
    ensures r.Some? && op == "ADD" ==>
      r.value.registers[a] == registers[a] + registers[b] && r.value.flag == flag &&
      forall i :: 0 <= i < REGISTER_COUNT && i != a ==> r.value.registers[i] == registers[i]
    ensures r.Some? && op == "MUL" ==>
      r.value.registers[a] == registers[a] * registers[b] && r.value.flag == flag &&
      forall i :: 0 <= i < REGISTER_COUNT && i != a ==> r.value.registers[i] == registers[i]
    ensures r.Some? && op == "CMP" ==>
      r.value.registers == registers && r.value.flag.Compared? && ValidFlags(r.value.flag) &&
      (r.value.flag.e <==> registers[a] == registers[b]) &&
      (r.value.flag.g <==> registers[a] > registers[b]) &&
      (r.value.flag.l <==> registers[a] < registers[b])
  {
    if !(op == "ADD" || op == "MUL" || op == "CMP") || !InRegisters(a) || !InRegisters(b) then None
    else if op == "ADD" then Some(AluOut(registers[a := registers[a] + registers[b]], flag))
    else if op == "MUL" then Some(AluOut(registers[a := registers[a] * registers[b]], flag))
    else
      var x, y := registers[a], registers[b];
      Some(AluOut(registers, Compared(x == y, x > y, x < y)))
  }

  /** The end of one step: the loop goes on, the loop ends at HLT, or an uncaught exception. */
  datatype StepResult = Running(state: State) | Halted(state: State) | Fault

  /** Carries out the decoded instruction `op` at `s.pc`. */
  function Execute(s: State, op: Op): (r: StepResult)
    requires WellFormed(s) && InRam(s.pc)
    ensures !r.Fault? ==> WellFormed(r.state)
  {
    var pc := s.pc;
    match op
    case Ldi =>
      if !InRam(pc + 2) then Fault
      else
        var reg, val := s.ram[pc + 1], s.ram[pc + 2];
        if !InRegisters(reg) then Fault
        else Running(s.(registers := s.registers[reg := val], pc := pc + 3))
    case Prn =>
      if !InRam(pc + 1) then Fault
      else
        var reg := s.ram[pc + 1];
        if !InRegisters(reg) then Fault
        else Running(s.(output := s.output + [s.registers[reg]], pc := pc + 2))
    case Mul => AluStep(s, op)
    case Cmp => AluStep(s, op)
    case Push =>
      if !InRam(pc + 1) then Fault
      else
        var reg := s.ram[pc + 1];
        if !InRegisters(reg) then Fault
        else
          var val, sp := s.registers[reg], s.registers[SP];
          if !InRam(sp) then Fault
          else Running(s.(ram := s.ram[sp := val], registers := s.registers[SP := sp - 1], pc := pc + 2))
    case Pop =>
      if !InRam(pc + 1) then Fault
      else
        var reg, sp := s.ram[pc + 1], s.registers[SP];
        if !InRam(sp) then Fault
        else if !InRegisters(reg) then Fault
        else
          var regs := s.registers[reg := s.ram[sp]];
          Running(s.(registers := regs[SP := regs[SP] + 1], pc := pc + 2))
    case Jmp => Jump(s)
    case Jeq =>
      (match s.flag
       case NoFlags => Running(s.(pc := pc + 1))
       case Compared(e, _, _) => if e then Jump(s) else Running(s.(pc := pc + 2)))
    case Jne =>
      (match s.flag
       case NoFlags => Running(s.(pc := pc + 1))
       case Compared(e, _, _) => if !e then Jump(s) else Running(s.(pc := pc + 2)))
    case Hlt => Halted(s)
    case St => Running(s)
  }

  /** MUL and CMP: the two operand bytes name the registers handed to the ALU. */
  function AluStep(s: State, op: Op): (r: StepResult)
    requires WellFormed(s) && InRam(s.pc)
    ensures !r.Halted?
    ensures r.Running? ==> WellFormed(r.state)
    ensures r.Running? ==> r.state == s.(registers := r.state.registers, flag := r.state.flag, pc := s.pc + 3)
  {
    if !InRam(s.pc + 2) then Fault
    else match Alu(Mnemonic(op), s.registers, s.flag, s.ram[s.pc + 1], s.ram[s.pc + 2])
      case None => Fault
      case Some(out) => Running(s.(registers := out.registers, flag := out.flag, pc := s.pc + 3))
  }

  /** JMP, and JEQ or JNE when taken: the PC becomes the value of the operand register. */
  function Jump(s: State): (r: StepResult)
    requires WellFormed(s) && InRam(s.pc)
    ensures !r.Halted?
    ensures r.Running? ==> r.state == s.(pc := r.state.pc)
  {
    if !InRam(s.pc + 1) then Fault
    else
      var reg := s.ram[s.pc + 1];
      if !InRegisters(reg) then Fault else Running(s.(pc := s.registers[reg]))
  }

  /**
    One pass of the loop in `CPU.run`. A fetch outside RAM faults; a byte the
    table does not know is reported and skipped.
  */
  function Step(s: State): (r: StepResult)
    requires WellFormed(s)
    ensures !r.Fault? ==> WellFormed(r.state)
  {
    if !InRam(s.pc) then Fault
    else match Decode(s.ram[s.pc])
      case None => Running(s.(pc := s.pc + 1))
      case Some(op) => Execute(s, op)
  }

  /**
    What every step keeps: a fetch outside RAM faults; it halts exactly at
    HLT and then changes nothing; it prints at most one value and never takes
    one back; it writes RAM only at the stack pointer; and flags stay one-hot.
  */
  lemma StepInvariants(s: State)
    requires WellFormed(s)
    ensures var r := Step(s);
      (r.Halted? <==> InRam(s.pc) && s.ram[s.pc] == OpCode(Hlt)) &&
      (!InRam(s.pc) ==> r.Fault?) &&
      (r.Halted? ==> r.state == s) &&
      (!r.Fault? ==> s.output <= r.state.output && |r.state.output| <= |s.output| + 1) &&
      (r.Running? ==> forall i :: 0 <= i < Loader.RAM_SIZE && i != s.registers[SP] ==> r.state.ram[i] == s.ram[i]) &&
      (r.Running? && ValidFlags(s.flag) ==> ValidFlags(r.state.flag))
  {
  }

  /** How a bounded run ends. `Crashed` keeps the state in which the faulting step began. */
  datatype RunResult = Finished(state: State) | Crashed(last: State) | OutOfFuel(state: State)

  /** `CPU.run` for at most `fuel` steps. */
  function Run(s: State, fuel: nat): (r: RunResult)
    requires WellFormed(s)
    ensures !r.Crashed? ==> WellFormed(r.state)
    ensures r.Crashed? ==> WellFormed(r.last)
    decreases fuel
  {
    if fuel == 0 then OutOfFuel(s)
    else match Step(s)
      case Running(t) => Run(t, fuel - 1)
      case Halted(t) => Finished(t)
      case Fault => Crashed(s)
  }

  /**
    A run finishes only on a HLT, crashes only on a step that faults, and
    its output extends the output it started with.
  */
  lemma {:induction false} RunEnds(s: State, fuel: nat)
    requires WellFormed(s)
    ensures var r := Run(s, fuel);
      (r.Finished? ==> InRam(r.state.pc) && r.state.ram[r.state.pc] == OpCode(Hlt)) &&
      (r.Crashed? ==> Step(r.last).Fault?) &&
      (!r.Crashed? ==> s.output <= r.state.output) &&
      (r.Crashed? ==> s.output <= r.last.output)
    decreases fuel
  {
    if fuel > 0 {
      var r := Step(s);
      if r.Running? {
        RunEnds(r.state, fuel - 1);
        assert Run(s, fuel) == Run(r.state, fuel - 1);
      }
    }
  }
}

=== FILE: wrappers.dfy ===
/** Option and Result, used for the source's exceptions and missing keys. */
module Wrappers {

  datatype Option<+T> = None | Some(value: T)

  datatype Result<+T, +E> = Ok(value: T) | Err(error: E)
}
